=== FILE: README.md ===
# CORS proxy access gate — Dafny model

This project models the decision logic of a CORS-enabling HTTP proxy. The proxy's `createServer` builds a
listener and then, for each request, does four things in order:

1. It checks the client IP against a static allowlist. This happens on the plain-HTTP listener only.
2. It checks the request's `origin` header against an origin whitelist and an origin blacklist.
3. It sets four permissive CORS headers and answers a preflight (`OPTIONS`) with 204.
4. It hands every other request to a forwarding engine.

When the forwarding engine fails, an error handler still makes sure the client gets a well-formed response.

Modules:

- `AccessPolicy` (access_policy.dfy): the pure checks.
  - `Includes` models JavaScript's `Array.prototype.includes` on string arrays.
  - `IsOriginAllowed` is the origin policy.
  - `IsIpAllowed` is exact-match membership in the IP allowlist.
- `HttpModel` (http_response.dfy): the incoming request as a value, and the node:http server response as a
  `Response` class.
  - The class holds a header map, status code and reason phrase, body, and the `headersSent`/`ended` flags.
  - Its methods are `setHeader`, `removeHeader`, `writeHead`, `end` and `getHeaderNames`.
  - Node throws on a header change or a `writeHead` once the head has gone out. These methods require that
    it has not.
  - `End` requires a response that is not finished yet. This is a restriction of the model: in Node a bare
    `end()` on a finished response does nothing. The error handler respects the restriction by checking
    `writableEnded` before calling `end`.
  - A ghost counter `forwarded` records hand-offs to the forwarding engine.
- `ProxyOptions` (proxy_options.dfy): the engine options.
  - The defaults are `xfwd` and `secure`.
  - Supplied options override them key by key.
- `CorsProxy` (create_server.dfy): the request handling itself.
  - `HandleCors` is the CORS responder.
  - `HandleHttpRequest` and `HandleTlsRequest` are the two request callbacks.
  - `RequestHandler` is the opaque hand-off to the forwarding engine.
  - `OnProxyError` is the engine's error handler.
  - `Decide` states the gate's pipeline as a pure function. The predicate `Answered` says what the response
    holds after each decision. Both request callbacks are proved to end in `Answered(res, Decide(...))`.

The static IP list is a parameter (`allowedIps`); only membership matters. The engine's error becomes the
string `errDesc`, the text JavaScript's `+` would produce.

## Model

| member | source | states |
|---|---|---|
| AccessPolicy.Includes | src/lib/createServer.js:44-55 | the `includes` scan finds a string exactly when it is an element of the array |
| AccessPolicy.IsOriginAllowed | src/lib/createServer.js:43-60 | a `*` in the whitelist allows every origin whatever the blacklist holds; without `*`, an origin missing from a non-empty whitelist is rejected; an origin passing the whitelist step is allowed exactly when the blacklist does not list it |
| AccessPolicy.EmptyListsAllowEveryOrigin | src/lib/createServer.js:53-59 | with both lists empty every origin is allowed, including the `""` used for a missing header |
| AccessPolicy.BlacklistMonotone | src/lib/createServer.js:53-58 | a larger blacklist never allows an origin that a smaller one rejects |
| AccessPolicy.OnlyListContentsMatter | src/lib/createServer.js:43-60 | the decision depends only on which strings the lists hold, not on their order or on repeated entries |
| AccessPolicy.IsIpAllowed | src/lib/createServer.js:189 | an IP passes exactly when it is defined and is one of the allowlist's strings (exact match); an empty allowlist admits nobody |
| HttpModel.Response.HeaderNames | src/lib/createServer.js:219-221 | returns every header name set on the response, each exactly once |
| ProxyOptions.MergeProxyOptions | src/lib/createServer.js:8-17 | the keys are the defaults' keys plus the supplied ones; a supplied key takes the supplied value; an unsupplied default keeps its value; with nothing supplied the result is the defaults; `secure` ends up off exactly when the caller supplied `secure: false`, or supplied no `secure` and the environment variable is "0" |
| CorsProxy.OriginRejectedBodyInjective | src/lib/createServer.js:68 | two rejected origins with the same 403 body are the same origin: the body names the origin unambiguously |
| CorsProxy.Decide | src/lib/createServer.js:76-207 | the IP step rejects exactly when an allowlist is in force and the client IP is not in it; a request is forwarded exactly when the IP passes (or no allowlist is in force), the origin is allowed and the method is not OPTIONS; it is a preflight exactly when both checks pass and the method is OPTIONS; an origin rejection carries the request's origin (`""` when missing) |
| CorsProxy.HandleCors | src/lib/createServer.js:23-41 | the four CORS headers with their literal values are added over the existing ones; it returns true exactly for OPTIONS, and then status 204 (an already assigned reason phrase is kept), an empty body and a finished response; otherwise status, reason, body and both flags are unchanged |
| CorsProxy.CorsHeadersAreFour | src/lib/createServer.js:24-33 | the CORS responder sets four distinct header names |
| CorsProxy.RequestHandler | src/lib/createServer.js:206 | a hand-off to the forwarding engine is recorded once, and nothing else on the response changes |
| CorsProxy.HandleHttpRequest | src/lib/createServer.js:76-207 | IP rejection gives 403 "Forbidden" with body `IP not allowed.`. Origin rejection gives 403 with the templated body naming the origin. Neither rejection adds a header. A preflight gets 204, an empty body and the four CORS headers. A forwarded request is handed off exactly once, stays open and already carries the four CORS headers. In every other case nothing is forwarded |
| CorsProxy.HandleTlsRequest | src/lib/createServer.js:63-74 | the same outcomes as the plain-HTTP callback, for the pipeline without the IP step |
| CorsProxy.OnProxyError | src/lib/createServer.js:210-228 | if the head was already sent, status, reason, headers and body are unchanged and the response ends, and `end` is called only when it had not ended yet. Otherwise every earlier header is removed, and the response is 404 (keeping any reason phrase the engine assigned before failing, as Node does) with the single header `Access-Control-Allow-Origin: *` and the body `Not found because of proxy error: ` followed by the error text |
| CorsProxy.IpRejectionIgnoresOrigin | src/lib/createServer.js:189-198 | once the IP is rejected, neither the origin header nor the origin lists can change the decision |
| CorsProxy.TlsSkipsOnlyIpCheck | src/lib/createServer.js:63-74 | the TLS callback never rejects for the IP, and it decides like the plain-HTTP callback whenever the IP is allowed |
| CorsProxy.ForwardedForHidesPeer | src/lib/createServer.js:77 | when `x-forwarded-for` is present and non-empty, the socket's remote address plays no part in the decision |
| CorsProxy.MissingOriginIsEmpty | src/lib/createServer.js:196 | a request without an `origin` header gets the same decision as one whose `origin` is empty, because `OriginOf` defaults the missing header to `""` |
| CorsProxy.EmptyForwardedForIsMissing | src/lib/createServer.js:77 | an empty `x-forwarded-for` header gets the same decision as no header, because `ClientIp` then falls back to the socket address |
| CorsProxy.ForwardedForPassesIpCheck | src/lib/createServer.js:77-194 | any request whose `x-forwarded-for` names an allowlisted address passes the IP step, whatever its real peer address |
| CorsProxy.UnlistedOriginScenario | src/lib/createServer.js:196-201 | origin `https://evil.example` against whitelist `["https://good.example"]` and an empty blacklist is an origin rejection |
| CorsProxy.UnknownPeerScenario | src/lib/createServer.js:77-194 | without `x-forwarded-for`, a peer address missing from the allowlist is rejected by the IP step |
| CorsProxy.PreflightScenario | src/lib/createServer.js:204 | an OPTIONS request from an allowed IP with empty origin lists is a preflight |

## Left out

- Listener construction (`http.createServer`, `https.createServer`), sockets, TLS options and body streaming are
  transport plumbing, not modelled.
- The `https` module is used by the TLS branch but never imported, so in JavaScript that branch would throw a
  ReferenceError. The model gives the TLS callback its evident pipeline (origin, CORS, forward) instead.
- The forwarding engine (`http-proxy`) and `getHandler` are not part of this model. Forwarding is the opaque
  `RequestHandler`, which only bumps the ghost counter. The engine options are built (`MergeProxyOptions`) but
  their effect on the engine is not modelled.
- `console.log` and `console.error` (the blocked-IP and proxy-error log lines) are side channels, not modelled.
- NODE_TLS_REJECT_UNAUTHORIZED is read from the process environment. The model takes it as a parameter.
- Older Node versions lack `getHeaderNames`, and the error handler then falls back to the keys of the private `_headers` object. That fallback is not modelled: it never runs on a Node that provides `getHeaderNames`, and `OnProxyError` always uses `HeaderNames`.
- The literal list of allowlisted IP addresses is a parameter. Only exact-match membership is modelled.
- The rendering of the engine's error object into the 404 body is JavaScript string coercion. It is the string
  parameter `errDesc`.
- Node treats header names case-insensitively and reports them in lower case. The model keys headers by the
  names as written. This changes no outcome here, for three reasons:
  - node:http hands every request callback a fresh response with no header set.
  - The four CORS names stay distinct when case is ignored.
  - The error handler removes every name present, whatever its case.
- Node reports header names in insertion order. `HeaderNames` gives them in an unspecified order. The error
  handler's result does not depend on the order.
- Node validates header names and values, and throws on characters it refuses. Not modelled.
- Option values are one of flag, text, number or an opaque description. Nested option objects are not looked
  into.
- `createServer` also accepts a missing options object (`options || {}`). The model takes the origin lists as
  given arrays: the source reads `originWhitelist` and `originBlacklist` without guarding them. If either
  list is missing, `isOriginAllowed` throws a TypeError on every request that reaches the origin step. The
  model does not capture that failure.

=== FILE: access_policy.dfy ===
/**
 * The access decisions of the proxy: the origin allow/deny policy and the
 * static IP allowlist. Both are pure functions of the request data and of
 * configuration fixed at start-up.
 */
module AccessPolicy {
  import opened Wrappers

  /** The two origin lists of the proxy's options, as JavaScript arrays. */
  datatype OriginOptions = OriginOptions(originWhitelist: seq<string>, originBlacklist: seq<string>)

  /** `Array.prototype.includes` on an array of strings: a linear scan comparing strings exactly. */
  function Includes(list: seq<string>, x: string): (found: bool)
    ensures found <==> x in list
  {
    if list == [] then false
    else list[0] == x || Includes(list[1..], x)
  }

  /**
   * `isOriginAllowed`: a wildcard in the whitelist allows everything; otherwise
   * a non-empty whitelist must list the origin, and then a non-empty blacklist
   * must not list it.
   */
  function IsOriginAllowed(origin: string, options: OriginOptions): (allowed: bool)
    // the wildcard short-circuits, whatever the blacklist holds
    ensures "*" in options.originWhitelist ==> allowed
    // an origin missing from a non-empty whitelist is rejected
    ensures ("*" !in options.originWhitelist && |options.originWhitelist| > 0
             && origin !in options.originWhitelist) ==> !allowed
    // an origin that passes the whitelist step is rejected exactly when blacklisted
    ensures ("*" !in options.originWhitelist
             && (|options.originWhitelist| == 0 || origin in options.originWhitelist))
            ==> (allowed <==> origin !in options.originBlacklist)
  {
    if Includes(options.originWhitelist, "*") then true
    else if |options.originWhitelist| > 0 && !Includes(options.originWhitelist, origin) then false
    else if |options.originBlacklist| > 0 && Includes(options.originBlacklist, origin) then false
    else true
  }

  /**
   * The IP check of the plain-HTTP path: exact string membership in the static
   * allowlist. An address that could not be determined (`undefined`) is never
   * a member of an array of strings.
   */
  function IsIpAllowed(ip: Option<string>, allowlist: seq<string>): (allowed: bool)
    ensures allowed <==> ip.Some? && ip.value in allowlist
    ensures allowlist == [] ==> !allowed
  {
    match ip
    case None => false
    case Some(address) => Includes(allowlist, address)
  }

  /** With both origin lists empty every origin is allowed, the empty string included. */
  lemma EmptyListsAllowEveryOrigin(origin: string)
    ensures IsOriginAllowed(origin, OriginOptions([], []))
  {
  }

  /**
   * Growing the blacklist never lets in an origin that the smaller blacklist
   * rejected: the policy is monotone in the blacklist.
   */
  lemma BlacklistMonotone(origin: string, whitelist: seq<string>, small: seq<string>, large: seq<string>)
    requires forall o :: o in small ==> o in large
    requires IsOriginAllowed(origin, OriginOptions(whitelist, large))
    ensures IsOriginAllowed(origin, OriginOptions(whitelist, small))
  {
  }

  /**
   * The decision depends only on which strings the two arrays hold, not on
   * their order or on repetitions.
   */
  lemma OnlyListContentsMatter(origin: string, a: OriginOptions, b: OriginOptions)
    requires forall o :: o in a.originWhitelist <==> o in b.originWhitelist
    requires forall o :: o in a.originBlacklist <==> o in b.originBlacklist
    ensures IsOriginAllowed(origin, a) == IsOriginAllowed(origin, b)
  {
    if |a.originWhitelist| > 0 {
      assert a.originWhitelist[0] in b.originWhitelist;
    }
    if |b.originWhitelist| > 0 {
      assert b.originWhitelist[0] in a.originWhitelist;
    }
  }
}

=== FILE: create_server.dfy ===
/**
 * The request handling of `createServer`: the CORS responder, the per-request
 * gate of the plain-HTTP and TLS listeners, the hand-off to the forwarding
 * engine and the engine's error boundary.
 */
module CorsProxy {
  import opened Wrappers
  import opened AccessPolicy
  import opened HttpModel

  const ALLOW_ORIGIN := "Access-Control-Allow-Origin"

  /** The four headers the CORS responder sets on every request that reaches it. */
  const CORS_HEADERS: map<string, string> := map[
    ALLOW_ORIGIN := "*",
    "Access-Control-Allow-Methods" := "GET, POST, PUT, DELETE, OPTIONS",
    "Access-Control-Allow-Headers" := "Content-Type, Authorization",
    "Access-Control-Allow-Credentials" := "true"
  ]

  const IP_REJECTED_BODY := "IP not allowed."
  const PROXY_ERROR_PREFIX := "Not found because of proxy error: "

  const ORIGIN_BODY_HEAD := "The origin \""
  const ORIGIN_BODY_TAIL := "\" was blacklisted by the operator of this proxy."

  /** The body of the 403 sent for a rejected origin: the origin quoted inside a fixed sentence. */
  function OriginRejectedBody(origin: string): (body: string)
  {
    ORIGIN_BODY_HEAD + origin + ORIGIN_BODY_TAIL
  }

  /** Different rejected origins get different bodies: the body names the origin unambiguously. */
  lemma OriginRejectedBodyInjective(a: string, b: string)
    requires OriginRejectedBody(a) == OriginRejectedBody(b)
    ensures a == b
  {
    var body := OriginRejectedBody(a);
    assert |a| == |b|;
    assert body[|ORIGIN_BODY_HEAD|..|ORIGIN_BODY_HEAD| + |a|] == a;
    assert OriginRejectedBody(b)[|ORIGIN_BODY_HEAD|..|ORIGIN_BODY_HEAD| + |b|] == b;
  }

  /**
   * The client address, `x-forwarded-for || socket.remoteAddress`: a non-empty
   * forwarded-for header wins over the socket's remote address, and an empty
   * one counts as missing.
   */
  function ClientIp(req: Request): (ip: Option<string>)
  {
    if "x-forwarded-for" in req.headers && req.headers["x-forwarded-for"] != ""
    then Some(req.headers["x-forwarded-for"])
    else req.remoteAddress
  }

  /** The origin, `headers.origin || ""`: a missing or empty header gives the empty string. */
  function OriginOf(req: Request): (origin: string)
  {
    if "origin" in req.headers && req.headers["origin"] != "" then req.headers["origin"] else ""
  }

  /** Which way the gate sends a request. */
  datatype Decision = DenyIp | DenyOrigin(origin: string) | Preflight | Forward

  /**
   * The gate as a pure pipeline: IP check (only when an allowlist is in force,
   * i.e. on the plain-HTTP listener), then origin check, then preflight, then
   * forwarding. The first step that applies decides.
   */
  function Decide(req: Request, ipAllowlist: Option<seq<string>>, options: OriginOptions): (d: Decision)
    ensures d == DenyIp <==> ipAllowlist.Some? && !IsIpAllowed(ClientIp(req), ipAllowlist.value)
    ensures d.DenyOrigin? ==> d.origin == OriginOf(req)
    ensures d == Forward <==>
              (ipAllowlist.None? || IsIpAllowed(ClientIp(req), ipAllowlist.value))
              && IsOriginAllowed(OriginOf(req), options)
              && req.httpMethod != "OPTIONS"
    ensures d == Preflight <==>
              (ipAllowlist.None? || IsIpAllowed(ClientIp(req), ipAllowlist.value))
              && IsOriginAllowed(OriginOf(req), options)
              && req.httpMethod == "OPTIONS"
  {
    if ipAllowlist.Some? && !IsIpAllowed(ClientIp(req), ipAllowlist.value) then DenyIp
    else if !IsOriginAllowed(OriginOf(req), options) then DenyOrigin(OriginOf(req))
    else if req.httpMethod == "OPTIONS" then Preflight
    else Forward
  }

  /**
   * What the response looks like after the gate took decision `d`, relative to
   * the response it was given. Rejections carry no CORS header; a preflight
   * is finished with 204 and an empty body; a forwarded request is still open,
   * carries the four CORS headers and was handed to the engine exactly once.
   */
  twostate predicate Answered(res: Response, d: Decision)
    reads res
  {
    res.Valid()
    && res.forwarded == old(res.forwarded) + (if d == Forward then 1 else 0)
    && match d
       case DenyIp =>
         res.statusCode == 403 && res.statusMessage == Some("Forbidden")
         && res.headers == old(res.headers) && res.body == IP_REJECTED_BODY && res.ended
       case DenyOrigin(origin) =>
         res.statusCode == 403 && res.statusMessage == Some("Forbidden")
         && res.headers == old(res.headers) && res.body == OriginRejectedBody(origin) && res.ended
       case Preflight =>
         res.statusCode == 204 && res.statusMessage == old(res.statusMessage)
         && res.headers == old(res.headers) + CORS_HEADERS && res.body == "" && res.ended
       case Forward =>
         res.statusCode == old(res.statusCode) && res.statusMessage == old(res.statusMessage)
         && res.headers == old(res.headers) + CORS_HEADERS && res.body == ""
         && !res.headersSent && !res.ended
  }

  /**
   * `handleCors`: sets the four CORS headers; a preflight (`OPTIONS`) is then
   * answered with 204 and finished, and reported as handled.
   */
  method HandleCors(req: Request, res: Response) returns (handled: bool)
    requires res.Valid() && !res.headersSent
    modifies res
    ensures res.Valid() && res.forwarded == old(res.forwarded)
    ensures handled <==> req.httpMethod == "OPTIONS"
    ensures res.headers == old(res.headers) + CORS_HEADERS
    ensures handled ==> res.statusCode == 204 && res.statusMessage == old(res.statusMessage)
                        && res.body == "" && res.headersSent && res.ended
    ensures !handled ==> res.statusCode == old(res.statusCode) && res.statusMessage == old(res.statusMessage)
                         && res.body == "" && !res.headersSent && !res.ended
  {
    res.SetHeader(ALLOW_ORIGIN, "*");
    res.SetHeader("Access-Control-Allow-Methods", "GET, POST, PUT, DELETE, OPTIONS");
    res.SetHeader("Access-Control-Allow-Headers", "Content-Type, Authorization");
    res.SetHeader("Access-Control-Allow-Credentials", "true");
    CorsUpdatesAreUnion(old(res.headers));
    if req.httpMethod == "OPTIONS" {
      res.WriteHead(204, None, map[]);
      res.End("");
      return true;
    }
    return false;
  }

  /** `requestHandler`: the forwarding engine, of which only the hand-off itself is modelled. */
  method RequestHandler(req: Request, res: Response)
    modifies res`forwarded
    ensures res.forwarded == old(res.forwarded) + 1
  {
    res.forwarded := res.forwarded + 1;
  }

  /** The request callback of the plain-HTTP listener. */
  method HandleHttpRequest(req: Request, res: Response, allowedIps: seq<string>, options: OriginOptions)
    requires res.Valid() && !res.headersSent
    modifies res
    ensures Answered(res, Decide(req, Some(allowedIps), options))
  {
    ghost var d := Decide(req, Some(allowedIps), options);
    var clientIp := ClientIp(req);
    if !IsIpAllowed(clientIp, allowedIps) {
      assert d == DenyIp;
      res.WriteHead(403, Some("Forbidden"), map[]);
      res.End(IP_REJECTED_BODY);
      return;
    }
    var origin := OriginOf(req);
    if !IsOriginAllowed(origin, options) {
      assert d == DenyOrigin(origin);
      res.WriteHead(403, Some("Forbidden"), map[]);
      res.End(OriginRejectedBody(origin));
      return;
    }
    var handled := HandleCors(req, res);
    if handled {
      assert d == Preflight;
      return;
    }
    assert d == Forward;
    RequestHandler(req, res);
  }

  /** The request callback of the TLS listener: the same gate without the IP check. */
  method HandleTlsRequest(req: Request, res: Response, options: OriginOptions)
    requires res.Valid() && !res.headersSent
    modifies res
    ensures Answered(res, Decide(req, None, options))
  {
    ghost var d := Decide(req, None, options);
    var origin := OriginOf(req);
    if !IsOriginAllowed(origin, options) {
      assert d == DenyOrigin(origin);
      res.WriteHead(403, Some("Forbidden"), map[]);
      res.End(OriginRejectedBody(origin));
      return;
    }
    var handled := HandleCors(req, res);
    if handled {
      assert d == Preflight;
      return;
    }
    assert d == Forward;
    RequestHandler(req, res);
  }

  /**
   * The forwarding engine's error handler. A response whose head already went
   * out is only finished (if it is not finished yet); otherwise every header
   * set so far is removed and a 404 carrying only the allow-origin header is
   * sent, its body naming the error.
   */
  method OnProxyError(errDesc: string, res: Response)
    requires res.Valid()
    modifies res
    ensures res.Valid() && res.headersSent && res.ended && res.forwarded == old(res.forwarded)
    ensures old(res.headersSent) ==>
              res.headers == old(res.headers) && res.statusCode == old(res.statusCode)
              && res.statusMessage == old(res.statusMessage) && res.body == old(res.body)
    ensures !old(res.headersSent) ==>
              res.headers == map[ALLOW_ORIGIN := "*"] && res.statusCode == 404
              && res.statusMessage == old(res.statusMessage) && res.body == PROXY_ERROR_PREFIX + errDesc
  {
    if res.headersSent {
      if !res.ended {
        res.End("");
      }
      return;
    }
    var names := res.HeaderNames();
    var i := 0;
    while i < |names|
      invariant 0 <= i <= |names|
      invariant res.Valid() && !res.headersSent
      invariant forall name :: name in res.headers <==> name in names[i..]
      modifies res`headers
    {
      res.RemoveHeader(names[i]);
      i := i + 1;
    }
    assert res.headers == map[];
    res.WriteHead(404, None, map[ALLOW_ORIGIN := "*"]);
    res.End(PROXY_ERROR_PREFIX + errDesc);
  }

  /** The four `setHeader` calls of the CORS responder add exactly CORS_HEADERS over what was there. */
  lemma CorsUpdatesAreUnion(h: map<string, string>)
    ensures h[ALLOW_ORIGIN := "*"]
             ["Access-Control-Allow-Methods" := "GET, POST, PUT, DELETE, OPTIONS"]
             ["Access-Control-Allow-Headers" := "Content-Type, Authorization"]
             ["Access-Control-Allow-Credentials" := "true"]
            == h + CORS_HEADERS
  {
  }

  /** The CORS responder sets four distinct headers. */
  lemma CorsHeadersAreFour()
    ensures |CORS_HEADERS| == 4
  {
  }

  /** A rejected IP is decided before the origin is looked at: neither the origin header nor the origin lists matter. */
  lemma IpRejectionIgnoresOrigin(req: Request, ips: seq<string>, a: OriginOptions, b: OriginOptions, origin: string)
    requires Decide(req, Some(ips), a) == DenyIp
    ensures Decide(req.(headers := req.headers["origin" := origin]), Some(ips), b) == DenyIp
  {
  }

  /** The TLS listener never rejects for the IP, and agrees with the plain-HTTP one whenever the IP is allowed. */
  lemma TlsSkipsOnlyIpCheck(req: Request, ips: seq<string>, options: OriginOptions)
    ensures Decide(req, None, options) != DenyIp
    ensures IsIpAllowed(ClientIp(req), ips) ==> Decide(req, Some(ips), options) == Decide(req, None, options)
  {
  }

  /** With a non-empty `x-forwarded-for` header the socket address plays no part in the decision. */
  lemma ForwardedForHidesPeer(req: Request, ips: Option<seq<string>>, options: OriginOptions, peer: Option<string>)
    requires "x-forwarded-for" in req.headers && req.headers["x-forwarded-for"] != ""
    ensures Decide(req.(remoteAddress := peer), ips, options) == Decide(req, ips, options)
  {
  }

  /** A missing `origin` header is judged exactly like an empty one (`OriginOf` defaults it to ""). */
  lemma MissingOriginIsEmpty(req: Request, ips: Option<seq<string>>, options: OriginOptions)
    ensures Decide(req.(headers := req.headers - {"origin"}), ips, options)
            == Decide(req.(headers := req.headers["origin" := ""]), ips, options)
  {
  }

  /**
   * An empty `x-forwarded-for` header counts as missing: `ClientIp` then falls
   * back to the socket address, as with no header at all.
   */
  lemma EmptyForwardedForIsMissing(req: Request, ips: Option<seq<string>>, options: OriginOptions)
    ensures Decide(req.(headers := req.headers - {"x-forwarded-for"}), ips, options)
            == Decide(req.(headers := req.headers["x-forwarded-for" := ""]), ips, options)
  {
  }

  /**
   * The IP check trusts a header the client writes: any request, from any
   * peer, passes it once it names an allowlisted address in `x-forwarded-for`.
   */
  lemma ForwardedForPassesIpCheck(req: Request, ips: seq<string>, options: OriginOptions, ip: string)
    requires ip in ips && ip != ""
    ensures Decide(req.(headers := req.headers["x-forwarded-for" := ip]), Some(ips), options) != DenyIp
  {
  }

  /** A request from an origin outside a one-entry whitelist is refused for its origin. */
  lemma UnlistedOriginScenario(ips: seq<string>)
    requires "203.0.113.7" in ips
    ensures Decide(Request("GET", map["origin" := "https://evil.example"], Some("203.0.113.7")),
                   Some(ips), OriginOptions(["https://good.example"], []))
            == DenyOrigin("https://evil.example")
  {
  }

  /** Without `x-forwarded-for`, a peer address outside the allowlist is refused. */
  lemma UnknownPeerScenario(ips: seq<string>, options: OriginOptions)
    requires "198.51.100.9" !in ips
    ensures Decide(Request("GET", map[], Some("198.51.100.9")), Some(ips), options) == DenyIp
  {
  }

  /** A preflight from an allowed IP with no origin lists configured is answered with 204. */
  lemma PreflightScenario(ips: seq<string>)
    requires "203.0.113.7" in ips
    ensures Decide(Request("OPTIONS", map["origin" := "https://app.example"], Some("203.0.113.7")),
                   Some(ips), OriginOptions([], [])) == Preflight
  {
  }
}

=== FILE: http_response.dfy ===
/**
 * The slice of node:http that the proxy's request callbacks and error handler
 * use: an incoming request as a value, and the server response as an object
 * whose fields the handlers update in place.
 */
module HttpModel {
  import opened Wrappers

  /**
   * An incoming request: its method, its header map (names in lower case, as
   * node:http delivers them) and the socket's remote address, which may be
   * undefined once the socket is gone.
   */
  datatype Request = Request(httpMethod: string, headers: map<string, string>, remoteAddress: Option<string>)

  /**
   * A server response. `headers` holds the headers set so far, `statusCode`
   * and `statusMessage` the status and reason phrase (200 and `None`, the
   * default phrase for the code, until assigned or written), `body` every chunk passed to `end`, `headersSent` and
   * `ended` the flags Node exposes as `headersSent` and `writableEnded`.
   * The ghost `forwarded` counts hand-offs to the forwarding engine.
   */
  class Response {
    var headers: map<string, string>
    var statusCode: int
    var statusMessage: Option<string>
    var body: string
    var headersSent: bool
    var ended: bool
    ghost var forwarded: nat

    /** A response is finished only after its head went out, and no body is written before the head. */
    ghost predicate Valid()
      reads this
    {
      (ended ==> headersSent) && (!headersSent ==> body == "")
    }

    /** The response node:http hands to a request callback. */
    constructor ()
      ensures Valid()
      ensures headers == map[] && statusCode == 200 && statusMessage == None && body == ""
      ensures !headersSent && !ended && forwarded == 0
    {
      headers := map[];
      statusCode := 200;
      statusMessage := None;
      body := "";
      headersSent := false;
      ended := false;
      forwarded := 0;
    }

    /** `res.setHeader(name, value)`; Node throws once the head has been sent. */
    method SetHeader(name: string, value: string)
      requires Valid() && !headersSent
      modifies this`headers
      ensures Valid()
      ensures headers == old(headers)[name := value]
    {
      headers := headers[name := value];
    }

    /** `res.removeHeader(name)`; Node throws once the head has been sent. */
    method RemoveHeader(name: string)
      requires Valid() && !headersSent
      modifies this`headers
      ensures Valid()
      ensures headers == old(headers) - {name}
    {
      headers := headers - {name};
    }

    /**
     * `res.statusCode = code; res.statusMessage = message`: the direct
     * assignments the forwarding engine makes before it writes anything.
     */
    method AssignStatus(code: int, message: Option<string>)
      requires Valid() && !headersSent
      modifies this`statusCode, this`statusMessage
      ensures Valid()
      ensures statusCode == code && statusMessage == message
    {
      statusCode := code;
      statusMessage := message;
    }

    /**
     * `res.writeHead(status, reason)` or `res.writeHead(status, headers)`: fixes
     * the status, merges the given headers over those already set, and marks
     * the head as sent. Without a reason argument a phrase assigned earlier is
     * kept (Node only falls back to the code's default phrase when none is set).
     * Node throws if the head was sent before.
     */
    method WriteHead(status: int, reason: Option<string>, extra: map<string, string>)
      requires Valid() && !headersSent
      modifies this`statusCode, this`statusMessage, this`headers, this`headersSent
      ensures Valid() && headersSent
      ensures statusCode == status
      ensures statusMessage == if reason.Some? then reason else old(statusMessage)
      ensures headers == old(headers) + extra
    {
      statusCode := status;
      if reason.Some? {
        statusMessage := reason;
      }
      headers := headers + extra;
      headersSent := true;
    }

    /** `res.end(data)`: sends the head if it has not gone out yet, writes `data` and finishes the response. */
    method End(data: string)
      requires Valid() && !ended
      modifies this`body, this`headersSent, this`ended
      ensures Valid() && headersSent && ended
      ensures body == old(body) + data
    {
      body := body + data;
      headersSent := true;
      ended := true;
    }

    /** `res.getHeaderNames()`: every name set on the response, each once. */
    method HeaderNames() returns (names: seq<string>)
      ensures forall name :: name in names <==> name in headers
      ensures forall i, j :: 0 <= i < j < |names| ==> names[i] != names[j]
    {
      names := [];
      var pending := headers.Keys;
      while pending != {}
        invariant pending <= headers.Keys
        invariant forall name :: name in names <==> name in headers && name !in pending
        invariant forall i, j :: 0 <= i < j < |names| ==> names[i] != names[j]
        decreases pending
      {
        var name :| name in pending;
        names := names + [name];
        pending := pending - {name};
      }
    }
  }
}

=== FILE: proxy_options.dfy ===
/**
 * The options handed to the forwarding engine: two defaults, overridden key
 * by key by whatever the caller supplied.
 */
module ProxyOptions {
  import opened Wrappers

  /** A value in the engine's option object (a JavaScript value of one of these kinds). */
  datatype OptionValue = Flag(on: bool) | Text(text: string) | Number(n: int) | Other(description: string)

  /**
   * The defaults before any override: forward the client address, and check
   * upstream TLS certificates unless the environment variable
   * NODE_TLS_REJECT_UNAUTHORIZED is exactly "0" (an unset variable keeps it on).
   */
  function DefaultProxyOptions(rejectUnauthorized: Option<string>): (defaults: map<string, OptionValue>)
  {
    map["xfwd" := Flag(true), "secure" := Flag(rejectUnauthorized != Some("0"))]
  }

  /**
   * Builds the engine options: start from the defaults and, when the caller
   * supplied an option object, copy each of its keys over them one at a time.
   */
  method MergeProxyOptions(rejectUnauthorized: Option<string>, supplied: Option<map<string, OptionValue>>)
    returns (merged: map<string, OptionValue>)
    ensures supplied.None? ==> merged == DefaultProxyOptions(rejectUnauthorized)
    ensures supplied.Some? ==> merged.Keys == DefaultProxyOptions(rejectUnauthorized).Keys + supplied.value.Keys
    // a supplied key overrides the default
    ensures supplied.Some? ==> forall key :: key in supplied.value ==> merged[key] == supplied.value[key]
    // a default the caller did not supply keeps its value
    ensures forall key :: key in DefaultProxyOptions(rejectUnauthorized)
                          && (supplied.None? || key !in supplied.value)
                          ==> key in merged && merged[key] == DefaultProxyOptions(rejectUnauthorized)[key]
    // certificate checking ends up off exactly when the caller turned it off, or left it alone and the environment did
    ensures "secure" in merged
    ensures merged["secure"] == Flag(false) <==>
              (supplied.Some? && "secure" in supplied.value && supplied.value["secure"] == Flag(false))
              || ((supplied.None? || "secure" !in supplied.value) && rejectUnauthorized == Some("0"))
  {
    var defaults := DefaultProxyOptions(rejectUnauthorized);
    merged := defaults;
    if supplied.Some? {
      var given := supplied.value;
      var pending := given.Keys;
      while pending != {}
        invariant pending <= given.Keys
        invariant merged.Keys == defaults.Keys + (given.Keys - pending)
        invariant forall key :: key in given && key !in pending ==> merged[key] == given[key]
        invariant forall key :: key in defaults && (key !in given || key in pending) ==> merged[key] == defaults[key]
        decreases pending
      {
        var key :| key in pending;
        merged := merged[key := given[key]];
        pending := pending - {key};
      }
    }
  }
}

=== FILE: wrappers.dfy ===
/** An optional value: `None` stands for JavaScript's `undefined` where the proxy reads a value that may be missing. */
module Wrappers {
  datatype Option<+T> = None | Some(value: T)
}
